=== FILE: README.md ===
# wayout autolayout, modelled in Dafny

wayout is a daemon for the Sway compositor. It listens to window and
workspace events over Sway's IPC socket and reacts by sending layout commands,
so that each workspace keeps one wide "main" column with the other windows
docked beside it. This project models the daemon's decision logic as pure
functions over immutable values and proves what that logic promises:

- `autolayout` finds the focused node and its parent by searching the tree
  along the focus chain. Two guards skip floating or oversized windows and
  stacked or tabbed parents. The parent is then classified as "first" or
  "not first", and exactly two literal commands are sent, with ids written
  in decimal.
- `get_focused_workspace` returns the first focused entry of the workspace
  list.
- The event filter of the main loop sends window New/Close events to
  `autolayout` and answers workspace Init with one gap command. The loop
  handles the event stream in order and stops at the first failure.

IPC is modelled as values. A `Layout.Conn` holds what the compositor answers
during one run:

- the tree snapshot, or `None` when `get_tree` fails;
- the workspace list, or `None` when `get_workspaces` fails;
- the set of command texts whose `run_command` request fails.

The daemon ignores the compositor's per-command replies and only applies `?`
to the request itself, so a command the compositor rejects does not stop a
run; only a failed request does, besides the daemon's own errors ("No
focused node", "No parent", "No focused workspace"). A run yields a
`Layout.Run`: the commands sent, in order, and a pass/fail outcome. By
modelling convention, a command whose request failed is still listed,
because it was attempted. Nothing after a failure is sent.

Files, one module each: `base.dfy` (Option, errors, outcome),
`decimal.dfy` (id rendering), `tree.dfy` (nodes and the focus-chain search),
`workspaces.dfy` (workspace list), `commands.dfy` (command texts and marks),
`layout.dfy` (the engine), `events.dfy` (dispatch and event loop),
`scenarios.dfy` (whole-snapshot theorems and concrete runs).

`find_focused_as_ref` belongs to the IPC library, and its code is not part of
this model. `Tree.FindFocused` models it as a walk down the focus chain:

1. Test the node itself.
2. Otherwise, follow `focus[0]` into the tiling children, then into the
   floating children.
3. Stop when the chain ends.

Its contract is stated against an independent definition, `Tree.FocusPath`:
the answer is the first node on the focus path that satisfies the predicate,
or nothing when none does. Every property of `autolayout` is stated relative
to that search.

Three points about the code's behaviour:

- Workspace Init sends `gaps horizontal current set 752`. That command acts
  on the current workspace, not necessarily on the one just created.
- The focused-node search follows the focus chain rather than searching the
  whole tree depth-first.
- The parent search looks only at tiling children (`nodes`), never at
  floating ones.

## Model

| member | source | states |
|---|---|---|
| Decimal.NatToString | src/main.rs:103-110 | an id renders as a non-empty string of decimal digits with no leading zero unless the id is 0 |
| Decimal.ValueOfNatToString | src/main.rs:110 | reading the rendered id back as a decimal number gives the id: rendering loses nothing |
| Decimal.NatToStringValueOf | src/main.rs:110 | every canonical decimal numeral is the rendering of the number it denotes |
| Decimal.NatToStringInjective | src/main.rs:103-110 | two ids render identically exactly when they are equal |
| Commands.IdOfMarkOf | src/main.rs:110 | the mark `main_<id>` names exactly the id it was built from |
| Commands.MarkOfInjective | src/main.rs:103-110 | two ids share a `main_` mark exactly when they are equal |
| Commands.MarkCommandsRoundTrip | src/main.rs:103-110 | `mark --add` attaches `main_<P>`, the resize selects `main_<W>`, and the resize targets the mark added earlier exactly when P equals W |
| Commands.CommandsDistinct | src/main.rs:99-110 | the four command forms are never equal to one another |
| Tree.FocusPath | src/main.rs:81-82 | the focus path starts at the root, each node is followed by its focused child, and the last node has none |
| Tree.FindFocused | src/main.rs:81-82 | the search returns the first node on the focus path that satisfies the predicate, or nothing exactly when no node on the path does |
| Tree.FocusedAndParentOnPath | src/main.rs:81-91 | when focus is flagged only at the end of the focus chain and that node is a tiling child, the two searches find the focused window and its actual parent |
| Workspaces.FocusedWorkspace | src/main.rs:115-119 | the result is the first focused workspace in list order, and it is absent exactly when no workspace is focused |
| Workspaces.FocusedWorkspaceIsFirst | src/main.rs:117 | whatever follows the first focused workspace in the list, that workspace is the one returned |
| Layout.Autolayout | src/main.rs:78-113 | a run sends at most two commands, and a successful run sends none or two |
| Layout.NoFocusedNodeFails | src/main.rs:81-83 | with no focused node on the focus path, the run fails with the error whose message is "No focused node" and sends nothing |
| Layout.GuardSkips | src/main.rs:85-87 | a floating focused window, or one whose size share exceeds 1, ends the run successfully with no command, even when no parent exists |
| Layout.NoParentFails | src/main.rs:85-91 | a normally tiled focused window counts a missing size share as 1; with no parent on the path, the run fails with the error whose message is "No parent" and sends nothing |
| Layout.StackedOrTabbedSkips | src/main.rs:93-95 | a stacked or tabbed parent ends the run successfully with no command |
| Layout.NotFirstCommands | src/main.rs:97-105 | a parent that is not a workspace, or has more than one child, yields exactly `gaps right current set 0` and then the 1920px resize of `main_<W>`, where W is the first focused workspace in the list |
| Layout.NotFirstWithoutWorkspace | src/main.rs:99-102 | in the "not first" case with no focused workspace, the run fails with the error whose message is "No focused workspace" after sending only the right-gap command |
| Layout.WorkspaceListFails | src/main.rs:99-102 | in the "not first" case, when the workspace list cannot be fetched, the run fails on that request after sending only the right-gap command |
| Layout.FirstCommands | src/main.rs:98-112 | otherwise the parent is a workspace with exactly one child, and the run sends exactly `gaps horizontal current set 752` and then `mark --add main_<P>`, whatever the workspace list holds |
| Layout.SuccessfulRunShape | src/main.rs:78-113 | a successful run sends nothing, the first-window pair or the not-first pair |
| Layout.FailureTruncates | src/main.rs:99-110 | failed requests only cut the reliable run short; a run that still succeeds equals the reliable run, and so does any run none of whose commands fails |
| Layout.ExecuteTruncates | src/main.rs:97-112 | the same prefix property for each decision, with the workspace lookup placed between the two commands |
| Layout.FailedRequestEndsRun | src/main.rs:79-110 | a failed request ends the run: a failed `get_tree` fails it before any command, every command before the last went through, a failed last command fails the run, and a run that fails on a request failed on the tree having sent nothing, on the workspace list having sent only the right gap, or on its last command |
| Layout.RunCommandsDistinct | src/main.rs:97-110 | the commands of one run are pairwise distinct, so each request is singled out by its text |
| Events.Route | src/main.rs:53-70 | an event runs autolayout exactly when it is a window New or Close, and sets the gap exactly when it is a workspace Init |
| Events.EventLoop | src/main.rs:52-71 | the loop produces the trace of processing the stream in order, and succeeds only if every item was an event |
| Events.StopsAtFirstFailure | src/main.rs:52-59 | once the loop has failed, later items change neither the commands sent nor the outcome |
| Events.ProcessEventsPass | src/main.rs:52-71 | the loop succeeds exactly when every item is an event whose handling succeeds |
| Events.WindowNewOrCloseRunsAutolayout | src/main.rs:54-60 | a window New or Close event behaves exactly as an autolayout run |
| Events.WorkspaceInitSetsGap | src/main.rs:63-66 | workspace Init sends exactly `gaps horizontal current set 752` and fails exactly when that request fails, with a result independent of the tree and the workspace list |
| Events.OtherEventsIgnored | src/main.rs:61-67 | every other window or workspace change sends nothing and succeeds |
| Events.ProcessEventsAppend | src/main.rs:52-71 | the loop over two stretches of the stream is the loop over the first and then, only if that passed, over the second: the commands of successive passing stretches are concatenated |
| Events.RepeatedEventRepeatsCommands | src/main.rs:52-60 | the same passing event delivered twice on the same snapshot sends its commands twice over |
| Scenarios.FirstWindowOnWorkspace | src/main.rs:89-112 | under the compositor's focus invariant, a window alone on a split workspace yields the 752 gap command and then `mark --add main_<P>`, a mark named after the workspace's id P |
| Scenarios.LaterWindowInSplit | src/main.rs:89-105 | under the same invariant, a window beside others zeroes its right gap and resizes the focused workspace's main column |
| Scenarios.ScenarioFirstWindow | src/main.rs:54-56 | one window opening on workspace 1 sends `gaps horizontal current set 752` and `mark --add main_1` |
| Scenarios.ScenarioSecondWindow | src/main.rs:97-103 | a second focused window, with workspace 3 focused, sends `gaps right current set 0` and `[con_mark="main_3"] resize set 1920px` |
| Scenarios.ScenarioNothingFocused | src/main.rs:81-83 | a snapshot with nothing focused makes the event loop fail with "No focused node" and send nothing |

## Left out

- Signal handling, the exit command and process exit (src/main.rs:26-40, 44-46, 73-74): asynchronous OS signals and a concurrent task, outside the decision logic.
- Command-line parsing (src/main.rs:9-24): a library wrapper with no logic.
- Opening connections and subscribing (src/main.rs:48-51): socket I/O. Their effect on a run is captured by `Layout.Conn`, and the event stream by a sequence of `Events.Delivery` items.
- The `unreachable!()` arms (src/main.rs:37, 69): the event type holds only window and workspace events, so these arms cannot arise.
- What the compositor does with the commands (gaps, marks, resizing): the compositor is external. The model stops at the exact command texts.
- The internals of `find_focused_as_ref` in the IPC library: it is modelled as the focus-chain walk described above. Properties are stated relative to its predicate.
- Ids are `nat`: the library's ids are signed 64-bit integers, but the compositor never assigns negative ids, so no minus sign is rendered.
- `percent` is a Dafny `real`: floating-point rounding is not modelled. It appears only in one comparison with 1.0.
- Node and workspace fields the daemon never reads (names, geometry, urgency and so on) are omitted, except a few workspace fields kept for readability.

=== FILE: base.dfy ===
/** Small shared vocabulary: optional values, the daemon's errors, and the
    pass/fail outcome of a sequence of requests. */
module Base {

  /** An optional value, as returned by a search that may find nothing. */
  datatype Option<T> = None | Some(value: T)

  /** Every way an autolayout run or the event loop can end in failure.
      `RequestFailed` is any request error reported by the IPC connection
      (get_tree, get_workspaces or run_command); the other three carry the
      messages the daemon itself produces. */
  datatype Error =
    | RequestFailed
    | StreamFailed
    | NoFocusedNode
    | NoParent
    | NoFocusedWorkspace

  /** The text reported for each error. The daemon's own three errors carry
      the messages it writes; "request failed" and "event stream failed" are
      placeholders for the IPC library's errors, whose text is not modelled. */
  function Message(e: Error): string
  {
    match e
    case RequestFailed => "request failed"
    case StreamFailed => "event stream failed"
    case NoFocusedNode => "No focused node"
    case NoParent => "No parent"
    case NoFocusedWorkspace => "No focused workspace"
  }

  /** The messages of the daemon's own errors, spelled out. */
  lemma ErrorMessages()
    ensures Message(NoFocusedNode) == "No focused node"
    ensures Message(NoParent) == "No parent"
    ensures Message(NoFocusedWorkspace) == "No focused workspace"
  {
  }

  /** Whether a sequence of requests ran to completion. */
  datatype Outcome = Pass | Fail(error: Error)
}

=== FILE: commands.dfy ===
/** The exact command texts the daemon sends to the compositor, and the mark
    names that tie the "first window" and "not first window" cases together. */
module Commands {
  import opened Base
  import opened Decimal

  /** Horizontal gap of the whole workspace while it holds its main column. */
  const GapsHorizontal: string := "gaps horizontal current set 752"

  /** Right gap of a secondary window docked beside the main column. */
  const GapsRightZero: string := "gaps right current set 0"

  const MarkPrefix: string := "main_"
  const AddMarkPrefix: string := "mark --add "
  const SelectorPrefix: string := "[con_mark=\""
  const ResizeSuffix: string := "\"] resize set 1920px"

  /** The mark naming the main column of the container with id `id`. */
  function MarkOf(id: nat): string
  {
    MarkPrefix + NatToString(id)
  }

  /** The command `mark --add main_<id>`: it carries no criteria, so the
      compositor applies it to the focused container; the mark is named
      after `id`. */
  function MarkAdd(id: nat): string
  {
    AddMarkPrefix + MarkOf(id)
  }

  /** Resize the container carrying the mark `main_<id>`, named after the
      focused workspace's id, to 1920 pixels. */
  function ResizeMain(id: nat): string
  {
    SelectorPrefix + MarkOf(id) + ResizeSuffix
  }

  /** The mark a `mark --add` command attaches, if `cmd` is one. */
  function AddedMark(cmd: string): Option<string>
  {
    if |cmd| >= |AddMarkPrefix| && cmd[..|AddMarkPrefix|] == AddMarkPrefix
    then Some(cmd[|AddMarkPrefix|..])
    else None
  }

  /** The mark a main-column resize command selects, if `cmd` is one. */
  function SelectedMark(cmd: string): Option<string>
  {
    if && |cmd| >= |SelectorPrefix| + |ResizeSuffix|
       && cmd[..|SelectorPrefix|] == SelectorPrefix
       && cmd[|cmd| - |ResizeSuffix|..] == ResizeSuffix
    then Some(cmd[|SelectorPrefix|..|cmd| - |ResizeSuffix|])
    else None
  }

  /** The container id a main-column mark names, if `m` is such a mark. */
  function IdOfMark(m: string): Option<nat>
  {
    if && |m| > |MarkPrefix|
       && m[..|MarkPrefix|] == MarkPrefix
       && AllDigits(m[|MarkPrefix|..])
    then Some(ValueOf(m[|MarkPrefix|..]))
    else None
  }

  /** A mark names exactly the id it was built from. */
  lemma IdOfMarkOf(id: nat)
    ensures IdOfMark(MarkOf(id)) == Some(id)
  {
    var m := MarkOf(id);
    assert m[..|MarkPrefix|] == MarkPrefix;
    assert m[|MarkPrefix|..] == NatToString(id);
    ValueOfNatToString(id);
  }

  /** Two ids share a main-column mark only when they are equal. */
  lemma MarkOfInjective(a: nat, b: nat)
    ensures MarkOf(a) == MarkOf(b) <==> a == b
  {
    IdOfMarkOf(a);
    IdOfMarkOf(b);
  }

  /** The mark a "first window" command attaches and the mark a "not first"
      command resizes are both read back as the mark of their id, so the
      resize selects the mark added earlier exactly when the two ids
      agree. */
  lemma MarkCommandsRoundTrip(p: nat, w: nat)
    ensures AddedMark(MarkAdd(p)) == Some(MarkOf(p))
    ensures SelectedMark(ResizeMain(w)) == Some(MarkOf(w))
    ensures AddedMark(MarkAdd(p)) == SelectedMark(ResizeMain(w)) <==> p == w
  {
    var a := MarkAdd(p);
    assert a[..|AddMarkPrefix|] == AddMarkPrefix;
    assert a[|AddMarkPrefix|..] == MarkOf(p);
    var r := ResizeMain(w);
    assert r[..|SelectorPrefix|] == SelectorPrefix;
    assert r[|r| - |ResizeSuffix|..] == ResizeSuffix;
    assert r[|SelectorPrefix|..|r| - |ResizeSuffix|] == MarkOf(w);
    MarkOfInjective(p, w);
  }

  /** The four kinds of command are told apart by their text. */
  lemma CommandsDistinct(p: nat, w: nat)
    ensures GapsHorizontal != GapsRightZero
    ensures MarkAdd(p) != GapsHorizontal && MarkAdd(p) != GapsRightZero
    ensures ResizeMain(w) != GapsHorizontal && ResizeMain(w) != GapsRightZero
    ensures MarkAdd(p) != ResizeMain(w)
  {
    assert GapsHorizontal[5] != GapsRightZero[5];
    assert MarkAdd(p)[0] == 'm' && ResizeMain(w)[0] == '[';
    assert GapsHorizontal[0] == 'g' && GapsRightZero[0] == 'g';
  }
}

=== FILE: decimal.dfy ===
/** Decimal rendering of container and workspace ids, as `format!("{}", id)`
    produces it inside the mark names `main_<id>`. */
module Decimal {

  predicate IsDigit(c: char)
  {
    '0' <= c <= '9'
  }

  predicate AllDigits(s: string)
  {
    forall i :: 0 <= i < |s| ==> IsDigit(s[i])
  }

  function DigitValue(c: char): (d: nat)
    requires IsDigit(c)
    ensures d < 10
  {
    c as int - '0' as int
  }

  function DigitChar(d: nat): (c: char)
    requires d < 10
    ensures IsDigit(c) && DigitValue(c) == d
  {
    (d + '0' as int) as char
  }

  /** The shortest decimal numeral of `n`: digits only, never empty, and no
      leading zero unless the number is zero itself. */
  function NatToString(n: nat): (s: string)
    ensures |s| >= 1
    ensures AllDigits(s)
    ensures s[0] == '0' ==> n == 0 && |s| == 1
    decreases n
  {
    if n < 10 then [DigitChar(n)]
    else NatToString(n / 10) + [DigitChar(n % 10)]
  }

  /** The number a string of decimal digits denotes (most significant first). */
  function ValueOf(s: string): nat
    requires AllDigits(s)
  {
    if |s| == 0 then 0
    else ValueOf(s[..|s| - 1]) * 10 + DigitValue(s[|s| - 1])
  }

  /** Reading back the numeral gives the number: rendering loses nothing. */
  lemma {:induction false} ValueOfNatToString(n: nat)
    ensures ValueOf(NatToString(n)) == n
    decreases n
  {
    var s := NatToString(n);
    if n < 10 {
      assert s[..|s| - 1] == [];
    } else {
      assert s[..|s| - 1] == NatToString(n / 10);
      ValueOfNatToString(n / 10);
    }
  }

  /** A numeral without a leading zero denotes a positive number. */
  lemma {:induction false} ValueOfPositive(s: string)
    requires AllDigits(s) && |s| >= 1 && s[0] != '0'
    ensures ValueOf(s) >= 1
    decreases |s|
  {
    if |s| > 1 {
      var init := s[..|s| - 1];
      assert init[0] == s[0];
      ValueOfPositive(init);
    }
  }

  /** Every canonical numeral is the rendering of the number it denotes, so
      NatToString is onto the canonical numerals. */
  lemma {:induction false} NatToStringValueOf(s: string)
    requires AllDigits(s) && |s| >= 1
    requires s[0] == '0' ==> |s| == 1
    ensures NatToString(ValueOf(s)) == s
    decreases |s|
  {
    if |s| == 1 {
      assert s[..0] == [];
      assert ValueOf(s) == DigitValue(s[0]);
      assert [DigitChar(DigitValue(s[0]))] == s;
    } else {
      var init := s[..|s| - 1];
      assert init[0] == s[0];
      ValueOfPositive(init);
      NatToStringValueOf(init);
      var v := ValueOf(s);
      assert v == ValueOf(init) * 10 + DigitValue(s[|s| - 1]);
      assert v / 10 == ValueOf(init) && v % 10 == DigitValue(s[|s| - 1]);
      assert DigitChar(DigitValue(s[|s| - 1])) == s[|s| - 1];
      assert s == init + [s[|s| - 1]];
    }
  }

  /** Distinct ids render to distinct numerals. */
  lemma NatToStringInjective(a: nat, b: nat)
    ensures NatToString(a) == NatToString(b) <==> a == b
  {
    ValueOfNatToString(a);
    ValueOfNatToString(b);
  }
}

=== FILE: events.dfy ===
/** The daemon's event loop: which window and workspace events it reacts to,
    and how it processes the event stream one event at a time, stopping at
    the first failure. */
module Events {
  import opened Base
  import opened Commands
  import opened Layout

  /** Changes reported with a window event. */
  datatype WindowChange = New | Close | Focus | Title | FullscreenMode | Move | Floating | Urgent | Mark

  /** Changes reported with a workspace event. */
  datatype WorkspaceChange = Init | Empty | Focus | Move | Rename | Urgent | Reload

  /** The two event classes the daemon subscribes to. */
  datatype Event =
    | WindowEvent(windowChange: WindowChange)
    | WorkspaceEvent(workspaceChange: WorkspaceChange)

  /** What an event makes the daemon do. */
  datatype Action = RunAutolayout | SetWorkspaceGap | Ignore

  /** The event filter: windows appearing or closing trigger autolayout, a
      newly created workspace gets the main-column gap, everything else is
      ignored. */
  function Route(e: Event): (a: Action)
    ensures a == RunAutolayout <==>
      e == WindowEvent(WindowChange.New) || e == WindowEvent(WindowChange.Close)
    ensures a == SetWorkspaceGap <==> e == WorkspaceEvent(WorkspaceChange.Init)
  {
    match e
    case WindowEvent(change) =>
      if change == WindowChange.New || change == WindowChange.Close then RunAutolayout else Ignore
    case WorkspaceEvent(change) =>
      if change == WorkspaceChange.Init then SetWorkspaceGap else Ignore
  }

  /** Handle one event against the compositor's answers `c` at that moment. */
  function HandleEvent(e: Event, c: Conn): Run
  {
    match Route(e)
    case RunAutolayout => Autolayout(c)
    case SetWorkspaceGap => Issue(c, GapsHorizontal)
    case Ignore => Run([], Pass)
  }

  /** One item read from the event subscription: an event together with the
      compositor's answers while it is handled, or a stream error. */
  datatype Delivery = Delivered(event: Event, conn: Conn) | StreamError

  /** The run of the event loop over the first |ds| items of the stream:
      items are handled in order, and the first failure ends the loop. */
  function ProcessEvents(ds: seq<Delivery>): Run
  {
    if |ds| == 0 then Run([], Pass)
    else
      var before := ProcessEvents(ds[..|ds| - 1]);
      match ds[|ds| - 1]
      case StreamError => Then(before, Run([], Fail(StreamFailed)))
      case Delivered(e, c) => Then(before, HandleEvent(e, c))
  }

  /** The event loop, one item at a time, as the daemon's `while let` runs
      it. */
  method EventLoop(ds: seq<Delivery>) returns (issued: seq<string>, outcome: Outcome)
    ensures issued == ProcessEvents(ds).issued
    ensures outcome == ProcessEvents(ds).outcome
    ensures outcome.Pass? ==> forall i :: 0 <= i < |ds| ==> ds[i].Delivered?
  {
    issued := [];
    outcome := Pass;
    var i := 0;
    while i < |ds|
      invariant 0 <= i <= |ds|
      invariant Run(issued, Pass) == ProcessEvents(ds[..i])
      invariant forall j :: 0 <= j < i ==> ds[j].Delivered?
    {
      assert ds[..i + 1][..i] == ds[..i];
      match ds[i] {
        case StreamError =>
          outcome := Fail(StreamFailed);
          StopsAtFirstFailure(ds, i + 1);
          assert ds[..|ds|] == ds;
          return;
        case Delivered(e, c) =>
          var r := HandleEvent(e, c);
          issued := issued + r.issued;
          if r.outcome.Fail? {
            outcome := r.outcome;
            StopsAtFirstFailure(ds, i + 1);
            assert ds[..|ds|] == ds;
            return;
          }
      }
      i := i + 1;
    }
    assert ds[..i] == ds;
  }

  /** Once the loop has failed, later items change nothing: no event after a
      failure is handled. */
  lemma {:induction false} StopsAtFirstFailure(ds: seq<Delivery>, k: nat)
    requires k <= |ds|
    requires ProcessEvents(ds[..k]).outcome.Fail?
    ensures ProcessEvents(ds) == ProcessEvents(ds[..k])
    decreases |ds| - k
  {
    if k < |ds| {
      assert ds[..k + 1][..k] == ds[..k];
      StopsAtFirstFailure(ds, k + 1);
    } else {
      assert ds[..k] == ds;
    }
  }

  /** The loop ends in success exactly when every item is an event whose
      handling succeeds. */
  lemma {:induction false} ProcessEventsPass(ds: seq<Delivery>)
    ensures ProcessEvents(ds).outcome.Pass? <==>
      forall i :: 0 <= i < |ds| ==>
        ds[i].Delivered? && HandleEvent(ds[i].event, ds[i].conn).outcome.Pass?
  {
    if |ds| > 0 {
      var init := ds[..|ds| - 1];
      ProcessEventsPass(init);
      assert forall i :: 0 <= i < |init| ==> init[i] == ds[i];
    }
  }

  /** A window appearing or closing runs autolayout; nothing else does. */
  lemma WindowNewOrCloseRunsAutolayout(e: Event, c: Conn)
    requires e == WindowEvent(WindowChange.New) || e == WindowEvent(WindowChange.Close)
    ensures HandleEvent(e, c) == Autolayout(c)
  {
  }

  /** A new workspace gets exactly the main-column gap, whatever the tree and
      the workspace list hold; the event fails exactly when that request
      fails. */
  lemma WorkspaceInitSetsGap(c: Conn, c': Conn)
    requires c.failing == c'.failing
    ensures HandleEvent(WorkspaceEvent(WorkspaceChange.Init), c)
         == Run([GapsHorizontal], if GapsHorizontal in c.failing then Fail(RequestFailed) else Pass)
    ensures HandleEvent(WorkspaceEvent(WorkspaceChange.Init), c)
         == HandleEvent(WorkspaceEvent(WorkspaceChange.Init), c')
  {
  }

  /** Every other window or workspace change sends nothing and succeeds. */
  lemma OtherEventsIgnored(e: Event, c: Conn)
    requires e != WindowEvent(WindowChange.New) && e != WindowEvent(WindowChange.Close)
    requires e != WorkspaceEvent(WorkspaceChange.Init)
    ensures HandleEvent(e, c) == Run([], Pass)
  {
  }

  /** Running the loop over two stretches of the stream is running it over
      the first, then, only if that passed, over the second. */
  lemma {:induction false} ProcessEventsAppend(ds: seq<Delivery>, ds': seq<Delivery>)
    ensures ProcessEvents(ds + ds') == Then(ProcessEvents(ds), ProcessEvents(ds'))
    decreases |ds'|
  {
    if |ds'| == 0 {
      assert ds + ds' == ds;
    } else {
      var init' := ds'[..|ds'| - 1];
      var all := ds + ds';
      assert all[..|all| - 1] == ds + init';
      assert all[|all| - 1] == ds'[|ds'| - 1];
      ProcessEventsAppend(ds, init');
      var last := match ds'[|ds'| - 1]
        case StreamError => Run([], Fail(StreamFailed))
        case Delivered(e, c) => HandleEvent(e, c);
      assert ProcessEvents(all) == Then(ProcessEvents(ds + init'), last);
      assert ProcessEvents(ds') == Then(ProcessEvents(init'), last);
      ThenAssociative(ProcessEvents(ds), ProcessEvents(init'), last);
    }
  }

  /** Sequencing runs is associative. */
  lemma ThenAssociative(a: Run, b: Run, d: Run)
    ensures Then(Then(a, b), d) == Then(a, Then(b, d))
  {
    if a.outcome.Pass? && b.outcome.Pass? {
      assert (a.issued + b.issued) + d.issued == a.issued + (b.issued + d.issued);
    }
  }

  /** A passing event delivered twice on the same snapshot sends its commands
      twice over. */
  lemma RepeatedEventRepeatsCommands(e: Event, c: Conn)
    requires HandleEvent(e, c).outcome.Pass?
    ensures ProcessEvents([Delivered(e, c), Delivered(e, c)]).issued
         == HandleEvent(e, c).issued + HandleEvent(e, c).issued
  {
    var ds := [Delivered(e, c), Delivered(e, c)];
    var r := HandleEvent(e, c);
    assert ds[..1] == [Delivered(e, c)];
    assert ds[..1][..0] == [];
    assert ProcessEvents([]) == Run([], Pass);
    assert ProcessEvents(ds[..1]) == Run([] + r.issued, r.outcome);
    assert ProcessEvents(ds) == Then(ProcessEvents(ds[..1]), r);
  }
}

=== FILE: layout.dfy ===
/** The autolayout decision engine: on a window appearing or closing, inspect
    a fresh tree snapshot and issue the commands that keep one wide main
    column per workspace with secondary windows docked beside it. */
module Layout {
  import opened Base
  import opened Tree
  import opened Commands
  import W = Workspaces

  /** What the compositor answers on the command connection during one run:
      the tree snapshot (`None` when `get_tree` fails), the workspace list
      (`None` when `get_workspaces` fails), and the command texts whose
      `run_command` request fails. The compositor's per-command replies are
      not inspected by the daemon, so a rejected command does not stop a
      run; a failed request does. Requests are keyed by their text, which
      singles each one out because the commands of a run are pairwise
      distinct (`RunCommandsDistinct`). */
  datatype Conn = Conn(
    tree: Option<Node>,
    workspaces: Option<seq<W.Workspace>>,
    failing: set<string>)

  /** A connection on which every request succeeds. */
  function Reliable(t: Node, ws: seq<W.Workspace>): Conn
  {
    Conn(Some(t), Some(ws), {})
  }

  /** The trace of one run: the commands sent, in order (a command whose
      request failed is included, as it was attempted: a modelling
      convention), and how the run ended. */
  datatype Run = Run(issued: seq<string>, outcome: Outcome)

  /** Send one command. */
  function Issue(c: Conn, cmd: string): Run
  {
    if cmd in c.failing then Run([cmd], Fail(RequestFailed)) else Run([cmd], Pass)
  }

  /** Run `a`, and only if it passed, continue with `b`: every request in the
      daemon is followed by `?`. */
  function Then(a: Run, b: Run): Run
  {
    if a.outcome.Fail? then a else Run(a.issued + b.issued, b.outcome)
  }

  /** `Option::unwrap_or`. */
  function PercentOr(p: Option<real>, default: real): real
  {
    match p
    case Some(v) => v
    case None => default
  }

  /** The first guard: a floating window, or one reported as larger than its
      parent, is left alone. */
  predicate Guarded(f: Node)
  {
    f.nodeType == FloatingCon || PercentOr(f.percent, 1.0) > 1.0
  }

  /** The parent already holds the main column: it is not a workspace, or it
      is a workspace with more than one tiling child. */
  predicate NotFirst(parent: Node)
  {
    parent.nodeType != Workspace || |parent.nodes| > 1
  }

  /** What the snapshot calls for, before any command is sent. */
  datatype Decision =
    | Refuse(error: Error)
    | Skip
    | DockSecondary
    | MarkMain(parentId: nat)

  /** The decision steps of `autolayout`, in the order the daemon takes them. */
  function Classify(t: Node): Decision
  {
    match FindFocused(t, IsFocused)
    case None => Refuse(NoFocusedNode)
    case Some(f) =>
      if Guarded(f) then Skip
      else
        match FindFocused(t, HasFocusedChild)
        case None => Refuse(NoParent)
        case Some(parent) =>
          if parent.layout == Stacked || parent.layout == Tabbed then Skip
          else if NotFirst(parent) then DockSecondary
          else MarkMain(parent.id)
  }

  /** Send the commands a decision calls for. The focused workspace is looked
      up only after the right gap is set, as the daemon does. */
  function Execute(d: Decision, c: Conn): Run
  {
    match d
    case Refuse(e) => Run([], Fail(e))
    case Skip => Run([], Pass)
    case DockSecondary =>
      Then(Issue(c, GapsRightZero),
        match c.workspaces
        case None => Run([], Fail(RequestFailed))
        case Some(ws) =>
          match W.FocusedWorkspace(ws)
          case None => Run([], Fail(NoFocusedWorkspace))
          case Some(w) => Issue(c, ResizeMain(w.id)))
    case MarkMain(p) =>
      Then(Issue(c, GapsHorizontal), Issue(c, MarkAdd(p)))
  }

  /** `autolayout`: fetch the tree, decide, and send the commands. A run that
      succeeds sends either no command or two; none sends more than two. */
  function Autolayout(c: Conn): (r: Run)
    ensures r.outcome.Pass? ==> |r.issued| == 0 || |r.issued| == 2
    ensures |r.issued| <= 2
  {
    match c.tree
    case None => Run([], Fail(RequestFailed))
    case Some(t) => Execute(Classify(t), c)
  }

  /** `f` is the node the focused-node search finds in `t`, and it tiles
      normally: not floating, and its size share is missing or at most 1. */
  ghost predicate TiledFocus(t: Node, f: Node)
  {
    && FindFocused(t, IsFocused) == Some(f)
    && f.nodeType != FloatingCon
    && (f.percent.None? || f.percent.value <= 1.0)
  }

  /** `parent` is the node the parent search finds in `t`, and it is neither
      stacked nor tabbed. */
  ghost predicate SplitParent(t: Node, parent: Node)
  {
    && FindFocused(t, HasFocusedChild) == Some(parent)
    && parent.layout != Stacked
    && parent.layout != Tabbed
  }

  /** No node on the focus path is focused: the run fails with "No focused
      node" before sending anything. */
  lemma NoFocusedNodeFails(c: Conn, t: Node)
    requires c.tree == Some(t)
    requires forall i :: 0 <= i < |FocusPath(t)| ==> !FocusPath(t)[i].focused
    ensures Autolayout(c) == Run([], Fail(NoFocusedNode))
    ensures Message(Autolayout(c).outcome.error) == "No focused node"
  {
    NotFoundOffPath(t, IsFocused);
    assert Classify(t) == Refuse(NoFocusedNode);
    ErrorMessages();
  }

  /** A floating focused window, or one whose size share exceeds 1, ends the
      run successfully with no command, whether or not a parent exists. */
  lemma GuardSkips(c: Conn, t: Node, f: Node)
    requires c.tree == Some(t) && FindFocused(t, IsFocused) == Some(f)
    requires f.nodeType == FloatingCon || (f.percent.Some? && f.percent.value > 1.0)
    ensures Autolayout(c) == Run([], Pass)
  {
  }

  /** A normally tiled focused window (a missing size share counts as 1 and
      does not trip the guard) with no node on the focus path having a
      focused tiling child: the run fails with "No parent", sending
      nothing. */
  lemma NoParentFails(c: Conn, t: Node, f: Node)
    requires c.tree == Some(t) && TiledFocus(t, f)
    requires forall i :: 0 <= i < |FocusPath(t)| ==> !HasFocusedChild(FocusPath(t)[i])
    ensures Autolayout(c) == Run([], Fail(NoParent))
    ensures Message(Autolayout(c).outcome.error) == "No parent"
  {
    NotFoundOffPath(t, HasFocusedChild);
    ClassifyNoParent(t, f);
    ErrorMessages();
  }

  lemma ClassifyNoParent(t: Node, f: Node)
    requires FindFocused(t, IsFocused) == Some(f) && !Guarded(f)
    requires FindFocused(t, HasFocusedChild) == None
    ensures Classify(t) == Refuse(NoParent)
  {
  }

  lemma ClassifyNotFirst(t: Node, f: Node, parent: Node)
    requires TiledFocus(t, f) && SplitParent(t, parent) && NotFirst(parent)
    ensures Classify(t) == DockSecondary
  {
  }

  lemma ClassifyFirst(t: Node, f: Node, parent: Node)
    requires TiledFocus(t, f) && SplitParent(t, parent) && !NotFirst(parent)
    ensures Classify(t) == MarkMain(parent.id)
  {
  }

  /** A stacked or tabbed parent ends the run successfully with no
      command. */
  lemma StackedOrTabbedSkips(c: Conn, t: Node, f: Node, parent: Node)
    requires c.tree == Some(t) && TiledFocus(t, f)
    requires FindFocused(t, HasFocusedChild) == Some(parent)
    requires parent.layout == Stacked || parent.layout == Tabbed
    ensures Autolayout(c) == Run([], Pass)
  {
  }

  /** "Not first": the right gap is zeroed, then the main column of the first
      focused workspace in the list is resized to 1920 pixels. */
  lemma NotFirstCommands(t: Node, ws: seq<W.Workspace>, f: Node, parent: Node, k: int)
    requires TiledFocus(t, f) && SplitParent(t, parent)
    requires parent.nodeType != Workspace || |parent.nodes| > 1
    requires W.FirstFocusedAt(ws, k)
    ensures Autolayout(Reliable(t, ws)) == Run([GapsRightZero, ResizeMain(ws[k].id)], Pass)
  {
    ClassifyNotFirst(t, f, parent);
    W.FocusedWorkspaceIsFirst(ws, k);
    assert Autolayout(Reliable(t, ws)) == Execute(DockSecondary, Reliable(t, ws));
  }

  /** "Not first" with no focused workspace: the right-gap command has already
      been sent when the run fails with "No focused workspace". */
  lemma NotFirstWithoutWorkspace(t: Node, ws: seq<W.Workspace>, f: Node, parent: Node)
    requires TiledFocus(t, f) && SplitParent(t, parent)
    requires parent.nodeType != Workspace || |parent.nodes| > 1
    requires forall i :: 0 <= i < |ws| ==> !ws[i].focused
    ensures Autolayout(Reliable(t, ws)) == Run([GapsRightZero], Fail(NoFocusedWorkspace))
    ensures Message(Autolayout(Reliable(t, ws)).outcome.error) == "No focused workspace"
  {
    ClassifyNotFirst(t, f, parent);
    assert W.FocusedWorkspace(ws).None?;
    assert Autolayout(Reliable(t, ws)) == Execute(DockSecondary, Reliable(t, ws));
    ErrorMessages();
  }

  /** "Not first" when the workspace list cannot be fetched: the right-gap
      command has been sent, and the failed request fails the run. */
  lemma WorkspaceListFails(c: Conn, t: Node, f: Node, parent: Node)
    requires c.tree == Some(t) && TiledFocus(t, f) && SplitParent(t, parent) && NotFirst(parent)
    requires c.workspaces.None? && GapsRightZero !in c.failing
    ensures Autolayout(c) == Run([GapsRightZero], Fail(RequestFailed))
  {
    ClassifyNotFirst(t, f, parent);
    assert Autolayout(c) == Execute(DockSecondary, c);
  }

  /** "First": the parent is a workspace holding exactly its one focused
      tiling child; the workspace gap is set and `mark --add main_<P>` is
      sent, a mark named after the parent's id, whatever the workspace list
      holds. */
  lemma FirstCommands(t: Node, ws: seq<W.Workspace>, f: Node, parent: Node)
    requires TiledFocus(t, f) && SplitParent(t, parent)
    requires parent.nodeType == Workspace && |parent.nodes| <= 1
    ensures |parent.nodes| == 1
    ensures Autolayout(Reliable(t, ws)) == Run([GapsHorizontal, MarkAdd(parent.id)], Pass)
  {
    assert HasFocusedChild(parent);
    ClassifyFirst(t, f, parent);
    assert Autolayout(Reliable(t, ws)) == Execute(MarkMain(parent.id), Reliable(t, ws));
  }

  /** A successful run sends nothing, or one of the two command pairs. */
  lemma SuccessfulRunShape(c: Conn)
    requires Autolayout(c).outcome.Pass?
    ensures var r := Autolayout(c).issued;
      || r == []
      || (exists p :: r == [GapsHorizontal, MarkAdd(p)])
      || (exists w :: r == [GapsRightZero, ResizeMain(w)])
  {
    var t := c.tree.value;
    match Classify(t)
    case Refuse(e) =>
    case Skip =>
    case DockSecondary =>
      var w := W.FocusedWorkspace(c.workspaces.value).value;
      assert Autolayout(c).issued == [GapsRightZero, ResizeMain(w.id)];
    case MarkMain(p) =>
      assert Autolayout(c).issued == [GapsHorizontal, MarkAdd(p)];
  }

  /** Failed requests only cut a run short: what is sent is a prefix of what a
      reliable connection would carry, a run that still succeeds is exactly
      the reliable one, and so is any run none of whose commands fails. */
  lemma FailureTruncates(c: Conn, t: Node, ws: seq<W.Workspace>)
    requires c.tree == Some(t)
    requires c.workspaces.Some? ==> c.workspaces.value == ws
    ensures Autolayout(c).issued <= Autolayout(Reliable(t, ws)).issued
    ensures Autolayout(c).outcome.Pass? ==> Autolayout(c) == Autolayout(Reliable(t, ws))
    ensures c.workspaces == Some(ws)
      && (forall i :: 0 <= i < |Autolayout(Reliable(t, ws)).issued| ==>
            Autolayout(Reliable(t, ws)).issued[i] !in c.failing)
      ==> Autolayout(c) == Autolayout(Reliable(t, ws))
  {
    assert Autolayout(c) == Execute(Classify(t), c);
    ExecuteTruncates(Classify(t), c, Reliable(t, ws));
  }

  /** `FailureTruncates` for one decision: `c` answers like `reliable`
      except that some of its requests may fail. */
  lemma ExecuteTruncates(d: Decision, c: Conn, reliable: Conn)
    requires reliable.failing == {} && reliable.workspaces.Some?
    requires c.workspaces.Some? ==> c.workspaces == reliable.workspaces
    ensures Execute(d, c).issued <= Execute(d, reliable).issued
    ensures Execute(d, c).outcome.Pass? ==> Execute(d, c) == Execute(d, reliable)
    ensures c.workspaces == reliable.workspaces
      && (forall i :: 0 <= i < |Execute(d, reliable).issued| ==>
            Execute(d, reliable).issued[i] !in c.failing)
      ==> Execute(d, c) == Execute(d, reliable)
  {
    var r := Execute(d, reliable);
    var none := forall i :: 0 <= i < |r.issued| ==> r.issued[i] !in c.failing;
    match d
    case Refuse(e) =>
    case Skip =>
    case DockSecondary =>
      assert r.issued[0] == GapsRightZero;
      match W.FocusedWorkspace(reliable.workspaces.value) {
        case None =>
        case Some(w) =>
          assert r == Run([GapsRightZero, ResizeMain(w.id)], Pass);
          if c.workspaces == reliable.workspaces && none {
            assert r.issued[0] !in c.failing && r.issued[1] !in c.failing;
            assert Issue(c, GapsRightZero) == Run([GapsRightZero], Pass);
            assert Issue(c, ResizeMain(w.id)) == Run([ResizeMain(w.id)], Pass);
          }
      }
    case MarkMain(p) =>
      assert r == Run([GapsHorizontal, MarkAdd(p)], Pass);
      if none {
        assert r.issued[0] !in c.failing && r.issued[1] !in c.failing;
        assert Issue(c, GapsHorizontal) == Run([GapsHorizontal], Pass);
        assert Issue(c, MarkAdd(p)) == Run([MarkAdd(p)], Pass);
      }
  }

  /** Every request is followed by `?`: a failed request ends the run. A
      failed `get_tree` fails the run before any command, every command but
      the last went through, a failed last command fails the run, and a run
      that fails on a request failed on fetching the tree (having sent
      nothing), on fetching the workspace list (having sent only the right
      gap), or on its last command. */
  lemma FailedRequestEndsRun(c: Conn)
    ensures c.tree.None? ==> Autolayout(c) == Run([], Fail(RequestFailed))
    ensures var r := Autolayout(c).issued;
      forall i :: 0 <= i < |r| - 1 ==> r[i] !in c.failing
    ensures var r := Autolayout(c).issued;
      |r| > 0 && r[|r| - 1] in c.failing ==> Autolayout(c).outcome == Fail(RequestFailed)
    ensures var r := Autolayout(c).issued;
      Autolayout(c).outcome == Fail(RequestFailed) ==>
        || (c.tree.None? && r == [])
        || (c.workspaces.None? && r == [GapsRightZero])
        || (|r| > 0 && r[|r| - 1] in c.failing)
  {
    if c.tree.Some? {
      assert Autolayout(c) == Execute(Classify(c.tree.value), c);
      ExecuteEndsAtFailure(Classify(c.tree.value), c);
    }
  }

  /** `FailedRequestEndsRun` for one decision. */
  lemma ExecuteEndsAtFailure(d: Decision, c: Conn)
    ensures var r := Execute(d, c).issued;
      forall i :: 0 <= i < |r| - 1 ==> r[i] !in c.failing
    ensures var r := Execute(d, c).issued;
      |r| > 0 && r[|r| - 1] in c.failing ==> Execute(d, c).outcome == Fail(RequestFailed)
    ensures var r := Execute(d, c).issued;
      Execute(d, c).outcome == Fail(RequestFailed) ==>
        || (d == Refuse(RequestFailed) && r == [])
        || (c.workspaces.None? && r == [GapsRightZero])
        || (|r| > 0 && r[|r| - 1] in c.failing)
  {
    match d
    case Refuse(e) =>
    case Skip =>
    case DockSecondary =>
      if GapsRightZero in c.failing {
        assert Execute(d, c) == Run([GapsRightZero], Fail(RequestFailed));
      } else {
        match c.workspaces {
          case None =>
            assert Execute(d, c) == Run([GapsRightZero], Fail(RequestFailed));
          case Some(ws) =>
            match W.FocusedWorkspace(ws) {
              case None =>
                assert Execute(d, c) == Run([GapsRightZero], Fail(NoFocusedWorkspace));
              case Some(w) =>
                assert Execute(d, c)
                    == Run([GapsRightZero, ResizeMain(w.id)], Issue(c, ResizeMain(w.id)).outcome);
            }
        }
      }
    case MarkMain(p) =>
      if GapsHorizontal in c.failing {
        assert Execute(d, c) == Run([GapsHorizontal], Fail(RequestFailed));
      } else {
        assert Execute(d, c) == Run([GapsHorizontal, MarkAdd(p)], Issue(c, MarkAdd(p)).outcome);
      }
  }

  /** The commands of one run are pairwise distinct, so the set of failing
      command texts in a `Conn` can single out any one request. */
  lemma RunCommandsDistinct(c: Conn)
    ensures var r := Autolayout(c).issued;
      forall i, j :: 0 <= i < j < |r| ==> r[i] != r[j]
  {
    var r := Autolayout(c).issued;
    if |r| == 2 {
      var t := c.tree.value;
      assert Autolayout(c) == Execute(Classify(t), c);
      match Classify(t)
      case Refuse(e) =>
      case Skip =>
      case DockSecondary =>
        var w := W.FocusedWorkspace(c.workspaces.value).value;
        assert r == [GapsRightZero, ResizeMain(w.id)];
        CommandsDistinct(0, w.id);
      case MarkMain(p) =>
        assert r == [GapsHorizontal, MarkAdd(p)];
        CommandsDistinct(p, 0);
    }
  }
}

=== FILE: scenarios.dfy ===
/** The daemon's behaviour on whole snapshots: the general "first window" and
    "second window" cases under the compositor's focus invariant, and three
    concrete event sequences. */
module Scenarios {
  import opened Base
  import opened Tree
  import opened Commands
  import opened Decimal
  import opened Layout
  import opened Events
  import W = Workspaces

  /** The focused window ends the focus chain, is a normally tiled child of
      the node before it, and focus is flagged nowhere else near the path. */
  ghost predicate TiledWindowFocused(t: Node)
  {
    var path := FocusPath(t);
    && |path| >= 2
    && FocusOnlyAtEnd(path)
    && path[|path| - 1] in path[|path| - 2].nodes
    && path[|path| - 1].nodeType != FloatingCon
    && (path[|path| - 1].percent.None? || path[|path| - 1].percent.value <= 1.0)
  }

  /** The node just above the end of the focus chain. */
  ghost function FocusParent(t: Node): Node
    requires |FocusPath(t)| >= 2
  {
    FocusPath(t)[|FocusPath(t)| - 2]
  }

  /** A window alone on a split workspace: the workspace gap is set and
      `mark --add main_<P>` is sent, a mark named after the workspace's id. */
  lemma FirstWindowOnWorkspace(t: Node, ws: seq<W.Workspace>)
    requires TiledWindowFocused(t)
    requires FocusParent(t).nodeType == Workspace && |FocusParent(t).nodes| == 1
    requires FocusParent(t).layout != Stacked && FocusParent(t).layout != Tabbed
    ensures Autolayout(Reliable(t, ws))
         == Run([GapsHorizontal, MarkAdd(FocusParent(t).id)], Pass)
  {
    var path := FocusPath(t);
    FocusedAndParentOnPath(t);
    assert TiledFocus(t, path[|path| - 1]);
    assert SplitParent(t, path[|path| - 2]);
    FirstCommands(t, ws, path[|path| - 1], path[|path| - 2]);
  }

  /** A window beside others in a split container: its right gap is zeroed
      and the first focused workspace's main column is resized. */
  lemma LaterWindowInSplit(t: Node, ws: seq<W.Workspace>, k: int)
    requires TiledWindowFocused(t)
    requires FocusParent(t).nodeType != Workspace || |FocusParent(t).nodes| > 1
    requires FocusParent(t).layout != Stacked && FocusParent(t).layout != Tabbed
    requires W.FirstFocusedAt(ws, k)
    ensures Autolayout(Reliable(t, ws)) == Run([GapsRightZero, ResizeMain(ws[k].id)], Pass)
  {
    var path := FocusPath(t);
    FocusedAndParentOnPath(t);
    assert TiledFocus(t, path[|path| - 1]);
    assert SplitParent(t, path[|path| - 2]);
    NotFirstCommands(t, ws, path[|path| - 1], path[|path| - 2], k);
  }

  function Window(id: nat, focused: bool, share: real): Node
  {
    Node(id, Con, NoLayout, focused, Some(share), [], [], [])
  }

  /** Root, one output (id 2) and one split workspace (id 1) holding
      `windows`, with focus passed down to the window `focusedId`. */
  function Desktop(windows: seq<Node>, focusedId: nat): Node
  {
    var workspace := Node(1, Workspace, SplitH, false, None, windows, [], [focusedId]);
    var output := Node(2, Output, OutputLayout, false, None, [workspace], [], [1]);
    Node(0, Root, SplitH, false, None, [output], [], [2])
  }

  /** The focus path of a desktop whose focus reaches the window `win`. */
  lemma DesktopPath(windows: seq<Node>, i: nat)
    requires i < |windows|
    requires forall j :: 0 <= j < i ==> windows[j].id != windows[i].id
    requires windows[i].focus == []
    ensures var t := Desktop(windows, windows[i].id);
      FocusPath(t) == [t, t.nodes[0], t.nodes[0].nodes[0], windows[i]]
  {
    var win := windows[i];
    var t := Desktop(windows, win.id);
    var out := t.nodes[0];
    var wsn := out.nodes[0];
    assert IndexOfId(wsn.nodes, win.id).value == i;
    assert FocusedChild(win) == None;
    assert FocusPath(win) == [win];
    assert FocusedChild(wsn) == Some(win);
    assert FocusPath(wsn) == [wsn, win];
    assert FocusedChild(out) == Some(wsn);
    assert FocusPath(out) == [out, wsn, win];
    assert FocusedChild(t) == Some(out);
  }

  /** The first window opens on workspace 1: gap set, then `mark --add
      main_1`, named after the workspace's id. */
  lemma ScenarioFirstWindow()
    ensures var c := Reliable(Desktop([Window(5, true, 1.0)], 5),
                              [W.Workspace(1, 1, "1", true, true, "eDP-1")]);
      HandleEvent(WindowEvent(WindowChange.New), c)
      == Run(["gaps horizontal current set 752", "mark --add main_1"], Pass)
  {
    var windows := [Window(5, true, 1.0)];
    var t := Desktop(windows, 5);
    var c := Reliable(t, [W.Workspace(1, 1, "1", true, true, "eDP-1")]);
    DesktopPath(windows, 0);
    var path := FocusPath(t);
    assert path[2].nodes == windows;
    assert FocusOnlyAtEnd(path);
    assert TiledWindowFocused(t);
    assert FocusParent(t) == path[2];
    FirstWindowOnWorkspace(t, c.workspaces.value);
    assert HandleEvent(WindowEvent(WindowChange.New), c) == Autolayout(c);
    CommandTexts();
  }

  /** A second window opens and takes focus; the focused workspace reports
      id 3: gap zeroed, main column of workspace 3 resized. */
  lemma ScenarioSecondWindow()
    ensures var c := Reliable(Desktop([Window(5, false, 0.5), Window(6, true, 0.5)], 6),
                              [W.Workspace(3, 1, "1", true, true, "eDP-1")]);
      HandleEvent(WindowEvent(WindowChange.New), c)
      == Run(["gaps right current set 0", "[con_mark=\"main_3\"] resize set 1920px"], Pass)
  {
    var windows := [Window(5, false, 0.5), Window(6, true, 0.5)];
    var t := Desktop(windows, 6);
    var ws := [W.Workspace(3, 1, "1", true, true, "eDP-1")];
    DesktopPath(windows, 1);
    var path := FocusPath(t);
    assert path[2].nodes == windows;
    assert path[3] in path[2].nodes;
    assert FocusOnlyAtEnd(path);
    assert W.FirstFocusedAt(ws, 0);
    LaterWindowInSplit(t, ws, 0);
    CommandTexts();
  }

  /** The two id-carrying commands of the scenarios, spelt out. */
  lemma CommandTexts()
    ensures MarkAdd(1) == "mark --add main_1"
    ensures ResizeMain(3) == "[con_mark=\"main_3\"] resize set 1920px"
  {
    assert NatToString(1) == "1";
    assert NatToString(3) == "3";
  }

  /** No window holds focus: the run fails with "No focused node", sending
      nothing, and so does the event loop. */
  lemma ScenarioNothingFocused()
    ensures var c := Reliable(Desktop([Window(5, false, 1.0)], 5), []);
      ProcessEvents([Delivered(WindowEvent(WindowChange.New), c)])
      == Run([], Fail(NoFocusedNode))
  {
    var c := Reliable(Desktop([Window(5, false, 1.0)], 5), []);
    var ds := [Delivered(WindowEvent(WindowChange.New), c)];
    assert ds[..0] == [];
  }
}

=== FILE: tree.dfy ===
/** The compositor's window tree as the IPC `get_tree` reply describes it, and
    the focus-chain search the daemon uses to find the focused node and its
    parent. */
module Tree {
  import opened Base

  /** Kinds of node in the tree. */
  datatype NodeType = Root | Output | Workspace | Con | FloatingCon | Dockarea

  /** Layout modes a container arranges its tiling children in. */
  datatype NodeLayout = SplitH | SplitV | Stacked | Tabbed | OutputLayout | DockareaLayout | NoLayout

  /** One node of a tree snapshot. `focus` lists the ids of the children in
      most-recently-focused-first order; `percent` is the share of the
      parent's space, absent for nodes that do not tile. */
  datatype Node = Node(
    id: nat,
    nodeType: NodeType,
    layout: NodeLayout,
    focused: bool,
    percent: Option<real>,
    nodes: seq<Node>,
    floatingNodes: seq<Node>,
    focus: seq<nat>)

  /** The position of the first node in `s` whose id is `id`. */
  function IndexOfId(s: seq<Node>, id: nat): (r: Option<nat>)
    ensures r.Some? ==> r.value < |s| && s[r.value].id == id
    ensures r.Some? ==> forall j :: 0 <= j < r.value ==> s[j].id != id
    ensures r.None? ==> forall j :: 0 <= j < |s| ==> s[j].id != id
  {
    if |s| == 0 then None
    else if s[0].id == id then Some(0)
    else
      match IndexOfId(s[1..], id)
      case None => None
      case Some(k) => Some(k + 1)
  }

  /** The child that most recently held focus: the child named by `focus[0]`,
      looked up among the tiling children first and then among the floating
      ones. */
  function FocusedChild(n: Node): (r: Option<Node>)
    ensures r.Some? ==> |n.focus| > 0 && r.value.id == n.focus[0]
    ensures r.Some? ==> r.value in n.nodes || r.value in n.floatingNodes
    ensures r.None? <==>
      || |n.focus| == 0
      || ((forall j :: 0 <= j < |n.nodes| ==> n.nodes[j].id != n.focus[0])
          && (forall j :: 0 <= j < |n.floatingNodes| ==> n.floatingNodes[j].id != n.focus[0]))
    ensures |n.focus| > 0 && (exists j :: 0 <= j < |n.nodes| && n.nodes[j].id == n.focus[0])
      ==> r.Some? && r.value in n.nodes
  {
    if |n.focus| == 0 then None
    else
      match IndexOfId(n.nodes, n.focus[0])
      case Some(i) => Some(n.nodes[i])
      case None =>
        match IndexOfId(n.floatingNodes, n.focus[0])
        case Some(i) => Some(n.floatingNodes[i])
        case None => None
  }

  /** Each node of `path` is followed by its focused child, and the last one
      has none. */
  ghost predicate IsFocusChain(path: seq<Node>)
  {
    && |path| >= 1
    && (forall i :: 0 <= i < |path| - 1 ==> FocusedChild(path[i]) == Some(path[i + 1]))
    && FocusedChild(path[|path| - 1]).None?
  }

  /** The chain of focused descendants from `n` down, `n` first. */
  function FocusPath(n: Node): (path: seq<Node>)
    ensures IsFocusChain(path)
    ensures path[0] == n
    decreases n
  {
    match FocusedChild(n)
    case None => [n]
    case Some(c) => [n] + FocusPath(c)
  }

  /** `path[i]` is the first node of `path` that satisfies `p`. */
  ghost predicate FirstMatchAt(path: seq<Node>, p: Node -> bool, i: int)
  {
    0 <= i < |path| && p(path[i]) && forall j :: 0 <= j < i ==> !p(path[j])
  }

  /** `r` is what a search of `path` for `p` should answer: the first match,
      or nothing when no node on the path matches. */
  ghost predicate Found(path: seq<Node>, p: Node -> bool, r: Option<Node>)
  {
    match r
    case Some(m) => exists i :: FirstMatchAt(path, p, i) && path[i] == m
    case None => forall i :: 0 <= i < |path| ==> !p(path[i])
  }

  lemma FoundAtHead(n: Node, p: Node -> bool)
    requires p(n)
    ensures Found(FocusPath(n), p, Some(n))
  {
    assert FirstMatchAt(FocusPath(n), p, 0);
  }

  lemma FoundBelow(n: Node, c: Node, p: Node -> bool, r: Option<Node>)
    requires !p(n) && FocusedChild(n) == Some(c)
    requires Found(FocusPath(c), p, r)
    ensures Found(FocusPath(n), p, r)
  {
    var path := FocusPath(n);
    assert path == [n] + FocusPath(c);
    match r
    case Some(m) =>
      var i :| FirstMatchAt(FocusPath(c), p, i) && FocusPath(c)[i] == m;
      assert FirstMatchAt(path, p, i + 1);
    case None =>
  }

  /** The IPC library's `find_focused_as_ref`: test the node itself, then
      descend into its focused child, until a node satisfies `p` or the focus
      chain ends. Its answer is the first node on the focus path that
      satisfies `p`. */
  function FindFocused(n: Node, p: Node -> bool): (r: Option<Node>)
    ensures r.Some? ==> p(r.value) && r.value in FocusPath(n)
    ensures Found(FocusPath(n), p, r)
    decreases n
  {
    if p(n) then
      FoundAtHead(n, p);
      Some(n)
    else
      match FocusedChild(n)
      case None => None
      case Some(c) =>
        var r := FindFocused(c, p);
        FoundBelow(n, c, p, r);
        r
  }

  /** When no node on the focus path satisfies `p`, the search finds
      nothing. */
  lemma {:induction false} NotFoundOffPath(n: Node, p: Node -> bool)
    requires forall i :: 0 <= i < |FocusPath(n)| ==> !p(FocusPath(n)[i])
    ensures FindFocused(n, p) == None
    decreases n
  {
    assert !p(FocusPath(n)[0]);
    match FocusedChild(n) {
      case None =>
      case Some(c) =>
        assert FocusPath(n) == [n] + FocusPath(c);
        assert forall i :: 0 <= i < |FocusPath(c)| ==> FocusPath(c)[i] == FocusPath(n)[i + 1];
        NotFoundOffPath(c, p);
    }
  }

  /** The predicate the daemon searches for its focused node. */
  predicate IsFocused(n: Node)
  {
    n.focused
  }

  /** `Iterator::any` over a sequence of nodes, testing the focus flag. */
  predicate AnyFocused(s: seq<Node>)
    decreases |s|
  {
    |s| > 0 && (s[0].focused || AnyFocused(s[1..]))
  }

  /** `AnyFocused` holds exactly when some node of the sequence is
      focused. */
  lemma {:induction false} AnyFocusedIff(s: seq<Node>)
    ensures AnyFocused(s) <==> exists k :: 0 <= k < |s| && s[k].focused
    decreases |s|
  {
    if |s| > 0 {
      AnyFocusedIff(s[1..]);
      if !s[0].focused && exists k :: 0 <= k < |s| && s[k].focused {
        var k :| 0 <= k < |s| && s[k].focused;
        assert s[1..][k - 1].focused;
      }
    }
  }

  /** The predicate the daemon searches for the parent: some tiling child
      (not a floating one) is focused. */
  predicate HasFocusedChild(n: Node)
  {
    AnyFocused(n.nodes)
  }

  /** On the focus path, only the last node is focused, and no node above the
      last one's parent has a focused tiling child: the compositor's focus
      flag marks exactly the end of the focus chain. */
  ghost predicate FocusOnlyAtEnd(path: seq<Node>)
  {
    && |path| >= 1
    && path[|path| - 1].focused
    && (forall j :: 0 <= j < |path| - 1 ==> !path[j].focused)
    && (forall j, k :: 0 <= j < |path| - 2 && 0 <= k < |path[j].nodes| ==> !path[j].nodes[k].focused)
  }

  /** When focus is flagged only at the end of the focus chain and that node
      is a tiling child, the two searches the daemon makes find the focused
      window and its actual parent: the node just before it on the path. */
  lemma FocusedAndParentOnPath(t: Node)
    requires FocusOnlyAtEnd(FocusPath(t))
    requires |FocusPath(t)| >= 2
    requires FocusPath(t)[|FocusPath(t)| - 1] in FocusPath(t)[|FocusPath(t)| - 2].nodes
    ensures FindFocused(t, IsFocused) == Some(FocusPath(t)[|FocusPath(t)| - 1])
    ensures FindFocused(t, HasFocusedChild) == Some(FocusPath(t)[|FocusPath(t)| - 2])
  {
    var path := FocusPath(t);
    var n := |path|;
    var f := FindFocused(t, IsFocused);
    assert IsFocused(path[n - 1]);
    assert f.Some?;
    var i :| FirstMatchAt(path, IsFocused, i) && path[i] == f.value;
    assert i == n - 1;

    var k :| 0 <= k < |path[n - 2].nodes| && path[n - 2].nodes[k] == path[n - 1];
    AnyFocusedIff(path[n - 2].nodes);
    assert HasFocusedChild(path[n - 2]);
    var q := FindFocused(t, HasFocusedChild);
    assert q.Some?;
    var i' :| FirstMatchAt(path, HasFocusedChild, i') && path[i'] == q.value;
    AnyFocusedIff(path[i'].nodes);
    assert i' == n - 2;
  }
}

=== FILE: workspaces.dfy ===
/** The IPC `get_workspaces` reply and the daemon's lookup of the focused
    workspace in it. */
module Workspaces {
  import opened Base

  /** One entry of the workspace list. */
  datatype Workspace = Workspace(
    id: nat,
    num: int,
    name: string,
    visible: bool,
    focused: bool,
    output: string)

  /** `ws[i]` is the first focused workspace in list order. */
  ghost predicate FirstFocusedAt(ws: seq<Workspace>, i: int)
  {
    0 <= i < |ws| && ws[i].focused && forall j :: 0 <= j < i ==> !ws[j].focused
  }

  /** `get_focused_workspace`: the first workspace of the list whose focused
      flag is set, or nothing when no workspace is focused. */
  function FocusedWorkspace(ws: seq<Workspace>): (r: Option<Workspace>)
    ensures r.Some? ==> exists i :: FirstFocusedAt(ws, i) && ws[i] == r.value
    ensures r.None? <==> forall i :: 0 <= i < |ws| ==> !ws[i].focused
  {
    if |ws| == 0 then None
    else if ws[0].focused then
      assert FirstFocusedAt(ws, 0);
      Some(ws[0])
    else
      var r := FocusedWorkspace(ws[1..]);
      FirstFocusedShift(ws, r);
      r
  }

  lemma FirstFocusedShift(ws: seq<Workspace>, r: Option<Workspace>)
    requires |ws| > 0 && !ws[0].focused
    requires r.Some? ==> exists i :: FirstFocusedAt(ws[1..], i) && ws[1..][i] == r.value
    ensures r.Some? ==> exists i :: FirstFocusedAt(ws, i) && ws[i] == r.value
  {
    if r.Some? {
      var i :| FirstFocusedAt(ws[1..], i) && ws[1..][i] == r.value;
      assert FirstFocusedAt(ws, i + 1);
    }
  }

  /** The first focused workspace is the one found, whatever follows it. */
  lemma FocusedWorkspaceIsFirst(ws: seq<Workspace>, i: int)
    requires FirstFocusedAt(ws, i)
    ensures FocusedWorkspace(ws) == Some(ws[i])
  {
    var r := FocusedWorkspace(ws);
    assert r.Some?;
    var i' :| FirstFocusedAt(ws, i') && ws[i'] == r.value;
    assert i' == i;
  }
}
